=== FILE: README.md ===
# Background remover, modelled in Dafny

A model of `BackgroundRemover` in `image_processing.py`. The class batch-processes a
folder of photographs. For each image it does three things:

- It seeds OpenCV's GrabCut segmentation with the rectangle left after an 8% margin
  is taken off every side.
- It refines the GrabCut label map into a mask: foreground labels become 255, only
  the largest external contour is kept and redrawn filled, and the result is
  Gaussian-blurred.
- It cuts the masked object out along its bounding box and pastes it, centred, onto
  a white canvas of the original size.

The model has five modules, one file each:

- `Grid` (`grid.dfy`) holds bytes, BGR pixels, row-major grids and OpenCV-style
  `(x, y, w, h)` rectangles.
- `Seed` (`seed.dfy`) computes the margin and the GrabCut seed rectangle.
- `Refine` (`refine.dfy`) models `_create_mask_grabcut` after the call to
  `cv2.grabCut`: binarisation, `max(contours, key=cv2.contourArea)` with Python's
  first-wins tie-break, the filled redraw, and the blur.
- `Compositor` (`compositor.dfy`) models `_apply_white_background_centered`. It
  covers the empty-mask fallback, `cv2.boundingRect`, the centring offsets, and
  the program's crop / white canvas / masked paste steps. It also proves a cell-wise
  characterisation of those steps, which the main properties rest on: the output
  is the masked object translated onto white.
- `Batch` (`batch.dfy`) models the extension filter of `process_images`, the
  per-file pipeline of `_process_single_image`, the loop over a folder, and the
  pipeline-level properties.

The main results:

- The composite is exactly the masked object, translated by the placement corner
  minus the bounding-box corner, on white.
- Every masked pixel survives the move.
- Nothing but white and input pixels appears in the output.
- Composing again with the moved mask, or with the filled mask of the paste
  region, changes nothing.
- `BoundingRect` is the unique smallest enclosing box.
- `max` picks the first contour of maximal area.
- An image in which GrabCut finds no foreground is written back unchanged.
- An image whose sides are both at most 12 pixels makes GrabCut raise, and
  since nothing catches the exception, the batch stops at the first such file.

In the code, `int(n * 0.08)` is 0 for every side of 12 pixels or less, so the
seed then covers that whole side. For every side of at least one pixel the
rectangle is non-empty and lies inside the image (`Seed.SeedRect`,
`Seed.SmallSideHasNoMargin`).

## Model

| member | source | states |
|---|---|---|
| Seed.Margin | image_processing.py:69-70 | The margin is the whole part of 8% of the side: `100 m <= 8 n < 100 (m + 1)`. |
| Seed.SeedRect | image_processing.py:68-71 | The seed starts at the two margins and leaves the same margin on the far side. For a non-empty image it is at least one pixel wide and high and lies inside the image. |
| Seed.SmallSideHasNoMargin | image_processing.py:69-71 | An image whose sides are both at most 12 pixels gets no margin on either side, so the seed is the whole image. |
| Seed.SeedCoversImageIffSmall | image_processing.py:68-71 | The seed is the whole image if and only if both sides are at most 12 pixels. |
| Refine.Binarise | image_processing.py:75 | The mask holds only 0 and 255. A cell is 255 exactly when its GrabCut label is definite or probable foreground. |
| Refine.BinariseAllBackground | image_processing.py:75 | The binarised mask is all zero if and only if no label is foreground. |
| Refine.ScanLargest | image_processing.py:80 | The left-to-right scan of `max` ends on a contour whose area is maximal and strictly larger than every earlier contour's. |
| Refine.LargestIndex | image_processing.py:80 | `max(contours, key=cv2.contourArea)` returns the first contour of largest area. |
| Refine.FirstLargestUnique | image_processing.py:80 | At most one index is the first of largest area, so the tie-break is deterministic. |
| Refine.Paint | image_processing.py:81-82 | The filled drawing onto zeros is 255 exactly on the contour's cells and 0 elsewhere. |
| Refine.KeepLargest | image_processing.py:78-83 | With no contour the mask is unchanged. Otherwise it is binary and 255 exactly on the cells of the first largest contour. |
| Refine.CreateMask | image_processing.py:75-88 | The refined mask has the label map's shape. |
| Refine.CreateMaskAllBackground | image_processing.py:75-86 | A label map without foreground yields the all-zero refined mask, given that zeros have no contour and blur to zeros. |
| Compositor.BoundingRect | image_processing.py:101-105 | The rectangle lies in the image and encloses every non-zero cell. Each of its four edges passes through a non-zero cell. |
| Compositor.BoundingBoxIsSmallest | image_processing.py:105 | Every rectangle enclosing the non-zero cells contains the bounding box. |
| Compositor.BoundingBoxUnique | image_processing.py:105 | Two bounding boxes of the same mask are equal. |
| Compositor.Placement | image_processing.py:109-113 | The paste region has the crop's size and lies in the image. Its margins differ by at most one pixel, and the extra pixel goes right and bottom, as floor division does. |
| Compositor.PlacementIsFixed | image_processing.py:112-113 | Centring an already centred region leaves it in place. |
| Compositor.Compose | image_processing.py:101-103 | The output has the image's size. When the mask has no non-zero cell, the image is returned unchanged. |
| Compositor.Crop | image_processing.py:106-107 | Cell `(i, j)` of the crop is cell `(r.y + i, r.x + j)` of the grid. |
| Compositor.WhiteCanvas | image_processing.py:110 | Every cell of the fresh canvas is white. |
| Compositor.Paste | image_processing.py:115-118 | The masked assignment through the view, built row by row, leaves every cell outside the view as it was. Cell `(i, j)` of the view takes `patch[i][j]` exactly where `patchMask[i][j] > 0`, and otherwise keeps the canvas cell. |
| Compositor.CutAndPasteIsCropThenPaste | image_processing.py:105-118 | The program's crop, white canvas and masked paste give the same image as the cell-wise definition. |
| Compositor.CutAndPasteTranslates | image_processing.py:106-118 | When the crop encloses the mask, cut-and-paste is a translation: each cell shows the pixel it came from if that pixel is masked, and white otherwise. |
| Compositor.ComposePlacement | image_processing.py:110-118 | The composite is white outside the paste region. Inside, it holds the cropped pixel where the cropped mask is non-zero, and white elsewhere. |
| Compositor.ComposeTranslates | image_processing.py:101-120 | The composite is the masked object translated by the placement corner minus the bounding-box corner, on white. |
| Compositor.ComposeKeepsObject | image_processing.py:105-118 | Every masked pixel reappears unchanged inside the canvas, translated by the same offset. |
| Compositor.ComposeCentred | image_processing.py:112-118 | If the object is already centred, the output is the image where the mask is non-zero and white elsewhere. |
| Compositor.ComposeDrawsFromObject | image_processing.py:110-118 | Each output pixel is white or an input pixel at a masked cell. |
| Compositor.MovedMaskBoundingRect | image_processing.py:105 | The mask moved with the object is non-empty, and its bounding rectangle is the placement region. |
| Compositor.ComposeIdempotent | image_processing.py:101-120 | Composing the composite again, with the mask moved along with the object, gives back the composite. |
| Compositor.RectMaskBoundingRect | image_processing.py:105 | A non-empty rectangle inside the image is the bounding rectangle of its own mask, and that mask is not empty. |
| Compositor.CutAndPasteInPlace | image_processing.py:106-118 | Pasting an image in place through the mask of a rectangle gives it back when it is white outside the rectangle. |
| Compositor.ComposeIdempotentWithRect | image_processing.py:101-120 | Composing the composite again, with the filled mask of the paste region, gives back the composite. |
| Batch.IsImageFile | image_processing.py:30 | An accepted name is at least four characters long, the length of the shortest accepted extension. |
| Batch.ImageFileIgnoresCase | image_processing.py:30 | A name is accepted exactly when its lower-case form is accepted. |
| Batch.ImageFileHasExtension | image_processing.py:30 | A name is accepted if and only if it ends in an extension whose lower-case form is `.png`, `.jpg` or `.jpeg`. |
| Batch.ImageFileSplits | image_processing.py:30 | An accepted name splits into a base and an extension whose lower-case form is accepted. |
| Batch.ExtensionMakesImageFile | image_processing.py:30 | Any base followed by an extension whose lower-case form is accepted is an accepted name. |
| Batch.ImagesToProcess | image_processing.py:29-30 | The names handed on are exactly the image files of the listing, and there are no more of them than names. |
| Batch.ImagesToProcessAppend | image_processing.py:29-30 | Filtering a listing in two parts and concatenating keeps the listing order. |
| Batch.ImagesToProcessIdempotent | image_processing.py:29-30 | Filtering an already filtered listing changes nothing. |
| Batch.SegmentMask | image_processing.py:64-88 | The refined mask, computed from GrabCut seeded with the margin rectangle, has the image's size. |
| Batch.ProcessImage | image_processing.py:48-49 | The processed image has the size of the input. |
| Batch.ProcessFile | image_processing.py:44-51 | An unreadable file is skipped. A readable image raises exactly when both of its sides are at most 12 pixels. Otherwise it produces an image of its own size, in which every cell is white or a pixel of the input. If GrabCut labels nothing as foreground, that image is the input itself. |
| Batch.RunJobs | image_processing.py:29-34 | The loop writes no more images than there are accepted names. |
| Batch.RunJobsHeadWritten | image_processing.py:31-34 | A first file that is read and does not raise is written first, under its own name, as its processed image. |
| Batch.RunJobsWritesProcessedFiles | image_processing.py:29-34 | Only files that were read and processed without an exception are written. Each is written under its own name from the list, and holds the processed image of that file. |
| Batch.RunJobsRaisesIffSomeFileRaises | image_processing.py:29-34 | The batch ends with an exception if and only if some accepted file raises. |
| Batch.RunJobsStopsAtFirstRaise | image_processing.py:29-34 | An exception ends the batch at the first file that raises, and every file written comes before it. |
| Batch.RunJobsWritesEveryReadableFile | image_processing.py:29-34 | Every accepted file that could be read is written, if neither it nor any file before it raises. |
| Batch.ProcessImages | image_processing.py:24-34 | Only image files from the listing are written, and each holds the processed image of the file of that name. If the batch raises, it is at an image file of the listing. Every readable image file is written if neither it nor any image file before it raises. Without an exception, every readable image file of the listing is written. |
| Batch.NoForegroundKeepsImage | image_processing.py:48-49 | If GrabCut labels nothing as foreground, and zeros have no contour and blur to zeros, the processed image is the input. |
| Batch.ProcessImageWithoutForeground | image_processing.py:48-49 | If GrabCut labels nothing as foreground, and zeros have no contour and blur to zeros, the processed image is the input image. |
| Batch.ProcessImageDrawsFromInput | image_processing.py:48-49 | Whatever the segmentation returns, each output pixel is white or a pixel of the input. |

## Left out

- `cv2.grabCut` (line 74) is a parameter `segment` of the pipeline. Its five EM iterations, its colour models (`bgdModel` and `fgdModel`, lines 65-66) and its in-place update of `mask` are not modelled. It is only assumed to return one label per pixel.
- `cv2.findContours`, `cv2.contourArea` and `cv2.drawContours` (lines 78-82) are abstracted. A contour is its area plus the set of cells its filled drawing covers. Tracing and polygon area are not modelled, and `findContours` is a parameter.
- `cv2.GaussianBlur` (line 86) is a parameter assumed to keep the mask's shape. The convolution and its floating-point rounding are not modelled.
- Refine.CreateMask: its contract only states the shape of the result. The values depend on the blur and contour parameters. What is proved about them is `Refine.KeepLargest`, plus the all-background case in `Refine.CreateMaskAllBackground`.
- Batch.SegmentMask, Batch.ProcessImage: only the shape is stated directly. The content is characterised by the `Compositor` lemmas and by `Batch.NoForegroundKeepsImage` and `Batch.ProcessImageDrawsFromInput`.
- File-system I/O is not modelled:
  - the absolute paths and `os.makedirs` of the constructor (lines 20-22);
  - `os.listdir`, which is a sequence of names;
  - `os.path.join`, since each file is identified by its name and written under that same name;
  - `cv2.imread`, which is a reading function from names to optional decoded images;
  - `cv2.imwrite`;
  - the progress `print`s.
- The module-level script (lines 123-127) is not modelled.
- Batch.LowerChar: lower-cases ASCII letters only. Python's `str.lower` also maps other letters, but no non-ASCII character lowers to `.`, `p`, `n`, `g`, `j` or `e`, so the extension test is unaffected.
- Seed.Margin: models `int(n * 0.08)` as `8 n / 100` in exact arithmetic. The two agree for every side below 2^31, which covers every size OpenCV can hold, because `0.08` as a double lies just above 0.08.
- The in-place NumPy writes through the view `roi` (lines 115-118) are modelled as a function that returns the updated canvas.
- Batch.ProcessFile: the exception of `cv2.grabCut` is modelled only for its cause in this program. When both sides are at most 12 pixels, the seed rectangle is the whole image, so GrabCut has no background sample and raises `cv2.error`. Other OpenCV failures are not modelled. The exception's effect on the loop is modelled by `Batch.RunJobs`.
- Batch.RunJobs: its own contract states only that no more images are written than names are listed. Its meaning is stated by `Batch.RunJobsWritesProcessedFiles`, `Batch.RunJobsRaisesIffSomeFileRaises`, `Batch.RunJobsStopsAtFirstRaise` and `Batch.RunJobsWritesEveryReadableFile`.
- Batch.IsImageFile: its own contract states only the length bound. The full acceptance condition, in both directions, is `Batch.ImageFileHasExtension`.

=== FILE: batch.dfy ===
/**
 The driver of `BackgroundRemover`: which directory entries are treated as
 images, and the per-image pipeline "read, segment, refine the mask, compose,
 write".

 Listing the directory, reading and writing files, and GrabCut itself are
 outside this model: the directory listing is a sequence of names, a read is
 an optional decoded image, and the segmentation is a function parameter.
 */
module Batch {
  import opened Grid
  import opened Seed
  import opened Refine
  import opened Compositor

  /** `c.lower()` for the ASCII letters; every other character is kept. */
  function LowerChar(c: char): (d: char)
    ensures 'A' <= c <= 'Z' ==> 'a' <= d <= 'z' && d as int - c as int == 'a' as int - 'A' as int
    ensures !('A' <= c <= 'Z') ==> d == c
    ensures !('A' <= d <= 'Z')
  {
    if 'A' <= c <= 'Z' then (c as int - 'A' as int + 'a' as int) as char else c
  }

  /** `s.lower()`, character by character. */
  function LowerString(s: string): (r: string)
    ensures |r| == |s|
    ensures forall i :: 0 <= i < |s| ==> r[i] == LowerChar(s[i])
  {
    seq(|s|, i requires 0 <= i < |s| => LowerChar(s[i]))
  }

  /** `s.endswith(suffix)`. */
  predicate EndsWith(s: string, suffix: string)
  {
    |suffix| <= |s| && s[|s| - |suffix|..] == suffix
  }

  /** The accepted extensions, already in lower case. */
  const ImageSuffixes: set<string> := {".png", ".jpg", ".jpeg"}

  /** `filename.lower().endswith(('.png', '.jpg', '.jpeg'))`. */
  predicate IsImageFile(name: string)
    ensures IsImageFile(name) ==> |name| >= 4
  {
    exists suffix :: suffix in ImageSuffixes && EndsWith(LowerString(name), suffix)
  }

  /** Lower-casing twice is lower-casing once. */
  lemma LowerStringIdempotent(s: string)
    ensures LowerString(LowerString(s)) == LowerString(s)
  {
  }

  /** Lower-casing commutes with concatenation. */
  lemma LowerStringAppend(s: string, t: string)
    ensures LowerString(s + t) == LowerString(s) + LowerString(t)
  {
    assert forall i :: 0 <= i < |s + t| ==> LowerString(s + t)[i] == (LowerString(s) + LowerString(t))[i];
  }

  /** The test ignores case: a name is accepted exactly when its lower-case form is. */
  lemma ImageFileIgnoresCase(name: string)
    ensures IsImageFile(name) <==> IsImageFile(LowerString(name))
  {
    LowerStringIdempotent(name);
  }

  /**
   The acceptance test, both ways: a name is an image file exactly when it
   splits into some base and an extension whose lower-case form is `.png`,
   `.jpg` or `.jpeg`.
   */
  lemma ImageFileHasExtension(name: string)
    ensures IsImageFile(name) <==>
              exists base, ext :: name == base + ext && LowerString(ext) in ImageSuffixes
  {
    if IsImageFile(name) {
      ImageFileSplits(name);
    }
    if exists base, ext :: name == base + ext && LowerString(ext) in ImageSuffixes {
      var base, ext :| name == base + ext && LowerString(ext) in ImageSuffixes;
      ExtensionMakesImageFile(base, ext);
    }
  }

  /** An accepted name splits at the start of its accepted extension. */
  lemma ImageFileSplits(name: string)
    requires IsImageFile(name)
    ensures exists base, ext :: name == base + ext && LowerString(ext) in ImageSuffixes
  {
    var suffix :| suffix in ImageSuffixes && EndsWith(LowerString(name), suffix);
    var cut := |name| - |suffix|;
    var base, ext := name[..cut], name[cut..];
    assert name == base + ext;
    LowerStringAppend(base, ext);
    assert LowerString(ext) == LowerString(name)[cut..];
  }

  /** A name ending in an accepted extension, in any case, is accepted. */
  lemma ExtensionMakesImageFile(base: string, ext: string)
    requires LowerString(ext) in ImageSuffixes
    ensures IsImageFile(base + ext)
  {
    LowerStringAppend(base, ext);
    assert EndsWith(LowerString(base + ext), LowerString(ext));
  }

  /**
   The names `process_images` hands on, in listing order: the image files of
   the listing and nothing else.
   */
  function ImagesToProcess(names: seq<string>): (r: seq<string>)
    ensures |r| <= |names|
    ensures forall n :: n in r <==> n in names && IsImageFile(n)
    ensures forall i :: 0 <= i < |r| ==> IsImageFile(r[i])
  {
    if |names| == 0 then []
    else (if IsImageFile(names[0]) then [names[0]] else []) + ImagesToProcess(names[1..])
  }

  /** Filtering a listing piecewise gives the same names in the same order. */
  lemma {:induction false} ImagesToProcessAppend(a: seq<string>, b: seq<string>)
    ensures ImagesToProcess(a + b) == ImagesToProcess(a) + ImagesToProcess(b)
    decreases |a|
  {
    if |a| == 0 {
      assert a + b == b;
    } else {
      assert (a + b)[1..] == a[1..] + b;
      ImagesToProcessAppend(a[1..], b);
    }
  }

  /** Filtering keeps a listing of image files as it is, so filtering twice changes nothing. */
  lemma {:induction false} ImagesToProcessKeepsImages(names: seq<string>)
    requires forall i :: 0 <= i < |names| ==> IsImageFile(names[i])
    ensures ImagesToProcess(names) == names
    decreases |names|
  {
    if |names| > 0 {
      ImagesToProcessKeepsImages(names[1..]);
    }
  }

  lemma ImagesToProcessIdempotent(names: seq<string>)
    ensures ImagesToProcess(ImagesToProcess(names)) == ImagesToProcess(names)
  {
    ImagesToProcessKeepsImages(ImagesToProcess(names));
  }

  /** A decoded image and its size. */
  datatype Decoded = Decoded(pixels: Image, h: nat, w: nat)

  datatype Option<T> = None | Some(value: T)

  /**
   A GrabCut stand-in keeps the shape of its image: it returns one label per
   pixel.
   */
  ghost predicate KeepsShape(segment: (Image, Rect) -> seq<seq<Byte>>)
  {
    forall g: Image, r: Rect, h: nat, w: nat :: IsGrid(g, h, w) ==> IsGrid(segment(g, r), h, w)
  }

  /** A blur stand-in keeps the shape of its mask. */
  ghost predicate BlurKeepsShape(blur: Mask -> Mask)
  {
    forall g: Mask, h: nat, w: nat :: IsGrid(g, h, w) ==> IsGrid(blur(g), h, w)
  }

  /**
   The refined mask of `_create_mask_grabcut`: GrabCut is seeded with the
   rectangle inside the 8% margins, then its labels are refined.
   */
  function SegmentMask(img: Image, h: nat, w: nat, segment: (Image, Rect) -> seq<seq<Byte>>,
                       contoursOf: Mask -> seq<Contour>, blur: Mask -> Mask): (m: Mask)
    requires IsGrid(img, h, w) && KeepsShape(segment) && BlurKeepsShape(blur)
    ensures IsGrid(m, h, w)
  {
    CreateMask(segment(img, SeedRect(w, h)), h, w, contoursOf, blur)
  }

  /** `_create_mask_grabcut` followed by `_apply_white_background_centered`. */
  function ProcessImage(img: Image, h: nat, w: nat, segment: (Image, Rect) -> seq<seq<Byte>>,
                        contoursOf: Mask -> seq<Contour>, blur: Mask -> Mask): (out: Image)
    requires IsGrid(img, h, w) && KeepsShape(segment) && BlurKeepsShape(blur)
    ensures IsGrid(out, h, w)
  {
    Compose(img, SegmentMask(img, h, w, segment, contoursOf, blur), h, w)
  }

  /** What `_process_single_image` does with one file. */
  datatype Outcome =
    | Skipped                 // `cv2.imread` returned `None`: nothing is written
    | Written(image: Image)   // the processed image is written under the same name
    | Raised                  // `cv2.grabCut` raised `cv2.error`

  /**
   GrabCut initialised from a rectangle needs pixels outside it to learn the
   background colours from; when the seed is the whole image it has none and
   raises.
   */
  predicate GrabCutRaises(d: Decoded)
  {
    SeedCoversImage(d.w, d.h)
  }

  /**
   `_process_single_image`: an unreadable file is skipped, an image whose
   seed rectangle covers it whole makes GrabCut raise, and any other image is
   processed into an image of its own size.
   */
  function ProcessFile(read: Option<Decoded>, segment: (Image, Rect) -> seq<seq<Byte>>,
                       contoursOf: Mask -> seq<Contour>, blur: Mask -> Mask): (o: Outcome)
    requires read.Some? ==> IsGrid(read.value.pixels, read.value.h, read.value.w)
    requires KeepsShape(segment) && BlurKeepsShape(blur)
    ensures o.Skipped? <==> read.None?
    ensures o.Raised? <==> read.Some? && read.value.w <= 12 && read.value.h <= 12
    ensures o.Written? ==> read.Some? && IsGrid(o.image, read.value.h, read.value.w)
    ensures o.Written? ==> WhiteOrFrom(o.image, read.value.pixels, read.value.h, read.value.w)
    ensures o.Written? && AllBackground(segment(read.value.pixels, SeedRect(read.value.w, read.value.h)), read.value.h, read.value.w)
            && contoursOf(Zero(read.value.h, read.value.w)) == []
            && blur(Zero(read.value.h, read.value.w)) == Zero(read.value.h, read.value.w)
            ==> o.image == read.value.pixels
  {
    match read
    case None => Skipped
    case Some(d) =>
      SeedCoversImageIffSmall(d.w, d.h);
      if GrabCutRaises(d) then Raised
      else
        ProcessImageDrawsFromInput(d.pixels, d.h, d.w, segment, contoursOf, blur);
        ProcessImageWithoutForeground(d.pixels, d.h, d.w, segment, contoursOf, blur);
        Written(ProcessImage(d.pixels, d.h, d.w, segment, contoursOf, blur))
  }

  /** Every file the reader returns decodes to a well-formed grid. */
  ghost predicate ReadsGrids(read: string -> Option<Decoded>)
  {
    forall n :: read(n).Some? ==> IsGrid(read(n).value.pixels, read(n).value.h, read(n).value.w)
  }

  /** Processing the file `n` raises. */
  predicate Raises(read: string -> Option<Decoded>, n: string)
  {
    read(n).Some? && GrabCutRaises(read(n).value)
  }

  /**
   The outcome of a batch: the images written, each under its input name,
   and the name of the file whose exception ended the loop, if any.
   */
  datatype Run = Run(written: seq<(string, Image)>, raisedAt: Option<string>)

  /**
   The loop of `process_images` over the accepted names: skipped files write
   nothing, and nothing catches GrabCut's exception, so the first file that
   raises ends the whole batch.
   */
  function RunJobs(jobs: seq<string>, read: string -> Option<Decoded>, segment: (Image, Rect) -> seq<seq<Byte>>,
                   contoursOf: Mask -> seq<Contour>, blur: Mask -> Mask): (r: Run)
    requires ReadsGrids(read) && KeepsShape(segment) && BlurKeepsShape(blur)
    ensures |r.written| <= |jobs|
    decreases |jobs|
  {
    if |jobs| == 0 then Run([], None)
    else
      var rest := RunJobs(jobs[1..], read, segment, contoursOf, blur);
      match ProcessFile(read(jobs[0]), segment, contoursOf, blur)
      case Skipped => rest
      case Raised => Run([], Some(jobs[0]))
      case Written(img) => Run([(jobs[0], img)] + rest.written, rest.raisedAt)
  }

  /** One step of the loop, by the outcome of the first file. */
  lemma RunJobsStep(jobs: seq<string>, read: string -> Option<Decoded>, segment: (Image, Rect) -> seq<seq<Byte>>,
                    contoursOf: Mask -> seq<Contour>, blur: Mask -> Mask)
    requires ReadsGrids(read) && KeepsShape(segment) && BlurKeepsShape(blur)
    requires |jobs| > 0
    ensures var r := RunJobs(jobs, read, segment, contoursOf, blur);
            var rest := RunJobs(jobs[1..], read, segment, contoursOf, blur);
            && (read(jobs[0]).None? ==> r == rest)
            && (Raises(read, jobs[0]) ==> r == Run([], Some(jobs[0])))
            && (read(jobs[0]).Some? && !Raises(read, jobs[0]) ==>
                  r.raisedAt == rest.raisedAt && |r.written| == |rest.written| + 1
                  && r.written[0].0 == jobs[0] && r.written[1..] == rest.written)
  {
  }

  /** A first file that is read and does not raise is written first, as its processed image. */
  lemma RunJobsHeadWritten(jobs: seq<string>, read: string -> Option<Decoded>, segment: (Image, Rect) -> seq<seq<Byte>>,
                           contoursOf: Mask -> seq<Contour>, blur: Mask -> Mask)
    requires ReadsGrids(read) && KeepsShape(segment) && BlurKeepsShape(blur)
    requires |jobs| > 0 && read(jobs[0]).Some? && !Raises(read, jobs[0])
    ensures var r := RunJobs(jobs, read, segment, contoursOf, blur);
            |r.written| > 0 && r.written[0] == (jobs[0], ProcessImage(read(jobs[0]).value.pixels, read(jobs[0]).value.h,
                                                                    read(jobs[0]).value.w, segment, contoursOf, blur))
  {
  }

  /**
   Only files that were read and processed without an exception are
   written, each under its own name from the list and holding that file's
   processed image.
   */
  lemma {:induction false} RunJobsWritesProcessedFiles(jobs: seq<string>, read: string -> Option<Decoded>,
                                                       segment: (Image, Rect) -> seq<seq<Byte>>,
                                                       contoursOf: Mask -> seq<Contour>, blur: Mask -> Mask)
    requires ReadsGrids(read) && KeepsShape(segment) && BlurKeepsShape(blur)
    ensures var r := RunJobs(jobs, read, segment, contoursOf, blur);
            forall i :: 0 <= i < |r.written| ==>
              && r.written[i].0 in jobs && read(r.written[i].0).Some? && !Raises(read, r.written[i].0)
              && r.written[i].1 == ProcessImage(read(r.written[i].0).value.pixels, read(r.written[i].0).value.h,
                                                read(r.written[i].0).value.w, segment, contoursOf, blur)
    decreases |jobs|
  {
    if |jobs| > 0 {
      RunJobsStep(jobs, read, segment, contoursOf, blur);
      RunJobsWritesProcessedFiles(jobs[1..], read, segment, contoursOf, blur);
      var r := RunJobs(jobs, read, segment, contoursOf, blur);
      var rest := RunJobs(jobs[1..], read, segment, contoursOf, blur);
      forall i | 0 <= i < |r.written|
        ensures && r.written[i].0 in jobs && read(r.written[i].0).Some? && !Raises(read, r.written[i].0)
                && r.written[i].1 == ProcessImage(read(r.written[i].0).value.pixels, read(r.written[i].0).value.h,
                                                  read(r.written[i].0).value.w, segment, contoursOf, blur)
      {
        var n := r.written[i].0;
        if read(jobs[0]).Some? && i == 0 {
          RunJobsHeadWritten(jobs, read, segment, contoursOf, blur);
        } else if read(jobs[0]).None? {
          assert r.written[i] == rest.written[i] && n in jobs[1..];
        } else if i > 0 {
          assert r.written[i] == rest.written[i - 1] && n in jobs[1..];
        }
      }
    }
  }

  /** The batch ends with an exception exactly when some accepted file raises. */
  lemma {:induction false} RunJobsRaisesIffSomeFileRaises(jobs: seq<string>, read: string -> Option<Decoded>,
                                                          segment: (Image, Rect) -> seq<seq<Byte>>,
                                                          contoursOf: Mask -> seq<Contour>, blur: Mask -> Mask)
    requires ReadsGrids(read) && KeepsShape(segment) && BlurKeepsShape(blur)
    ensures RunJobs(jobs, read, segment, contoursOf, blur).raisedAt.None? <==>
              forall k :: 0 <= k < |jobs| ==> !Raises(read, jobs[k])
    decreases |jobs|
  {
    if |jobs| > 0 {
      RunJobsStep(jobs, read, segment, contoursOf, blur);
      RunJobsRaisesIffSomeFileRaises(jobs[1..], read, segment, contoursOf, blur);
      assert forall k :: 0 < k < |jobs| ==> jobs[k] == jobs[1..][k - 1];
    }
  }

  /**
   An exception ends the batch at the first file that raises, and every
   file written comes before it.
   */
  lemma {:induction false} RunJobsStopsAtFirstRaise(jobs: seq<string>, read: string -> Option<Decoded>,
                                                    segment: (Image, Rect) -> seq<seq<Byte>>,
                                                    contoursOf: Mask -> seq<Contour>, blur: Mask -> Mask)
    requires ReadsGrids(read) && KeepsShape(segment) && BlurKeepsShape(blur)
    ensures var r := RunJobs(jobs, read, segment, contoursOf, blur);
            r.raisedAt.Some? ==>
              exists k :: 0 <= k < |jobs| && jobs[k] == r.raisedAt.value && Raises(read, jobs[k])
                && (forall j :: 0 <= j < k ==> !Raises(read, jobs[j]))
                && (forall i :: 0 <= i < |r.written| ==> r.written[i].0 in jobs[..k])
    decreases |jobs|
  {
    var r := RunJobs(jobs, read, segment, contoursOf, blur);
    if |jobs| > 0 && r.raisedAt.Some? {
      RunJobsStep(jobs, read, segment, contoursOf, blur);
      if Raises(read, jobs[0]) {
        assert jobs[..0] == [];
        assert r.written == [];
      } else {
        var rest := RunJobs(jobs[1..], read, segment, contoursOf, blur);
        RunJobsStopsAtFirstRaise(jobs[1..], read, segment, contoursOf, blur);
        var k :| 0 <= k < |jobs| - 1 && jobs[1..][k] == rest.raisedAt.value && Raises(read, jobs[1..][k])
                 && (forall j :: 0 <= j < k ==> !Raises(read, jobs[1..][j]))
                 && (forall i :: 0 <= i < |rest.written| ==> rest.written[i].0 in jobs[1..][..k]);
        ShiftedFirstRaise(jobs, read, k);
        WrittenPrefixShifts(jobs, r.written, rest.written, k);
      }
    }
  }

  /**
   Names written from `jobs[1..][..k]`, with at most `jobs[0]` in front,
   are names from `jobs[..k + 1]`.
   */
  lemma WrittenPrefixShifts(jobs: seq<string>, written: seq<(string, Image)>, rest: seq<(string, Image)>, k: int)
    requires 0 <= k < |jobs| - 1
    requires written == rest || (|written| == |rest| + 1 && written[0].0 == jobs[0] && written[1..] == rest)
    requires forall i :: 0 <= i < |rest| ==> rest[i].0 in jobs[1..][..k]
    ensures forall i :: 0 <= i < |written| ==> written[i].0 in jobs[..k + 1]
  {
    assert jobs[1..][..k] == jobs[..k + 1][1..];
    forall i | 0 <= i < |written|
      ensures written[i].0 in jobs[..k + 1]
    {
      if written == rest {
        assert rest[i].0 in jobs[1..][..k];
      } else if i > 0 {
        assert written[i] == rest[i - 1];
      }
    }
  }

  /** A first raising position `k` in `jobs[1..]` is the first at `k + 1` in `jobs`, if `jobs[0]` does not raise. */
  lemma ShiftedFirstRaise(jobs: seq<string>, read: string -> Option<Decoded>, k: int)
    requires 0 <= k < |jobs| - 1 && !Raises(read, jobs[0])
    requires forall j :: 0 <= j < k ==> !Raises(read, jobs[1..][j])
    ensures jobs[k + 1] == jobs[1..][k]
    ensures forall j :: 0 <= j < k + 1 ==> !Raises(read, jobs[j])
  {
    forall j | 0 < j < k + 1
      ensures !Raises(read, jobs[j])
    {
      assert jobs[j] == jobs[1..][j - 1];
    }
  }

  /**
   Every accepted file that could be read, and that neither raises nor
   follows a file that raises, is written.
   */
  lemma {:induction false} RunJobsWritesEveryReadableFile(jobs: seq<string>, read: string -> Option<Decoded>,
                                                          segment: (Image, Rect) -> seq<seq<Byte>>,
                                                          contoursOf: Mask -> seq<Contour>, blur: Mask -> Mask)
    requires ReadsGrids(read) && KeepsShape(segment) && BlurKeepsShape(blur)
    ensures var r := RunJobs(jobs, read, segment, contoursOf, blur);
            forall k :: 0 <= k < |jobs| && read(jobs[k]).Some? && (forall j :: 0 <= j <= k ==> !Raises(read, jobs[j])) ==>
              exists i :: 0 <= i < |r.written| && r.written[i].0 == jobs[k]
    decreases |jobs|
  {
    if |jobs| > 0 {
      RunJobsStep(jobs, read, segment, contoursOf, blur);
      RunJobsWritesEveryReadableFile(jobs[1..], read, segment, contoursOf, blur);
      var r := RunJobs(jobs, read, segment, contoursOf, blur);
      var rest := RunJobs(jobs[1..], read, segment, contoursOf, blur);
      forall k | 0 <= k < |jobs| && read(jobs[k]).Some? && (forall j :: 0 <= j <= k ==> !Raises(read, jobs[j]))
        ensures exists i :: 0 <= i < |r.written| && r.written[i].0 == jobs[k]
      {
        assert !Raises(read, jobs[0]);
        if k == 0 {
          assert r.written[0].0 == jobs[0];
        } else {
          ShiftedNoRaise(jobs, read, k);
          var i :| 0 <= i < |rest.written| && rest.written[i].0 == jobs[k];
          if read(jobs[0]).Some? {
            assert r.written[i + 1] == rest.written[i];
          }
        }
      }
    }
  }

  /** No file up to `k` raises in `jobs`, so none up to `k - 1` raises in `jobs[1..]`. */
  lemma ShiftedNoRaise(jobs: seq<string>, read: string -> Option<Decoded>, k: int)
    requires 0 < k < |jobs|
    requires forall j :: 0 <= j <= k ==> !Raises(read, jobs[j])
    ensures jobs[1..][k - 1] == jobs[k]
    ensures forall j :: 0 <= j <= k - 1 ==> !Raises(read, jobs[1..][j])
  {
    forall j | 0 <= j <= k - 1
      ensures !Raises(read, jobs[1..][j])
    {
      assert jobs[1..][j] == jobs[j + 1];
    }
  }

  /** `process_images`: every accepted name of the listing, in listing order. */
  function ProcessImages(names: seq<string>, read: string -> Option<Decoded>, segment: (Image, Rect) -> seq<seq<Byte>>,
                         contoursOf: Mask -> seq<Contour>, blur: Mask -> Mask): (r: Run)
    requires ReadsGrids(read) && KeepsShape(segment) && BlurKeepsShape(blur)
    ensures forall i :: 0 <= i < |r.written| ==>
              && IsImageFile(r.written[i].0) && r.written[i].0 in names && read(r.written[i].0).Some?
              && r.written[i].1 == ProcessImage(read(r.written[i].0).value.pixels, read(r.written[i].0).value.h,
                                                read(r.written[i].0).value.w, segment, contoursOf, blur)
    ensures r.raisedAt.Some? ==> IsImageFile(r.raisedAt.value) && r.raisedAt.value in names
    ensures var jobs := ImagesToProcess(names);
            forall k :: 0 <= k < |jobs| && read(jobs[k]).Some? && (forall j :: 0 <= j <= k ==> !Raises(read, jobs[j])) ==>
              exists i :: 0 <= i < |r.written| && r.written[i].0 == jobs[k]
    ensures r.raisedAt.None? ==>
              forall n :: n in names && IsImageFile(n) && read(n).Some? ==>
                exists i :: 0 <= i < |r.written| && r.written[i].0 == n
  {
    var jobs := ImagesToProcess(names);
    RunJobsWritesProcessedFiles(jobs, read, segment, contoursOf, blur);
    RunJobsRaisesIffSomeFileRaises(jobs, read, segment, contoursOf, blur);
    RunJobsStopsAtFirstRaise(jobs, read, segment, contoursOf, blur);
    RunJobsWritesEveryReadableFile(jobs, read, segment, contoursOf, blur);
    var r := RunJobs(jobs, read, segment, contoursOf, blur);
    assert forall n :: n in jobs ==> exists k :: 0 <= k < |jobs| && jobs[k] == n;
    assert r.raisedAt.None? ==> forall k :: 0 <= k < |jobs| ==> !Raises(read, jobs[k]);
    r
  }

  /**
   When GrabCut labels no pixel as foreground, the refined mask is empty and
   the image is written back unchanged.
   */
  lemma NoForegroundKeepsImage(img: Image, h: nat, w: nat, segment: (Image, Rect) -> seq<seq<Byte>>,
                               contoursOf: Mask -> seq<Contour>, blur: Mask -> Mask)
    requires IsGrid(img, h, w) && KeepsShape(segment) && BlurKeepsShape(blur)
    requires AllBackground(segment(img, SeedRect(w, h)), h, w)
    requires contoursOf(Zero(h, w)) == [] && blur(Zero(h, w)) == Zero(h, w)
    ensures ProcessImage(img, h, w, segment, contoursOf, blur) == img
  {
    var labels := segment(img, SeedRect(w, h));
    CreateMaskAllBackground(labels, h, w, contoursOf, blur);
    assert !HasInk(Zero(h, w), h, w);
  }

  /** Every cell of `out` is white or holds some pixel of `img`. */
  predicate WhiteOrFrom(out: Image, img: Image, h: nat, w: nat)
    requires IsGrid(out, h, w) && IsGrid(img, h, w)
  {
    forall y, x :: 0 <= y < h && 0 <= x < w ==>
      out[y][x] == White || exists sy, sx :: 0 <= sy < h && 0 <= sx < w && out[y][x] == img[sy][sx]
  }

  /** `NoForegroundKeepsImage` as an implication, for callers that cannot assume its premise. */
  lemma ProcessImageWithoutForeground(img: Image, h: nat, w: nat, segment: (Image, Rect) -> seq<seq<Byte>>,
                                      contoursOf: Mask -> seq<Contour>, blur: Mask -> Mask)
    requires IsGrid(img, h, w) && KeepsShape(segment) && BlurKeepsShape(blur)
    ensures AllBackground(segment(img, SeedRect(w, h)), h, w)
            && contoursOf(Zero(h, w)) == [] && blur(Zero(h, w)) == Zero(h, w) ==>
              ProcessImage(img, h, w, segment, contoursOf, blur) == img
  {
    if AllBackground(segment(img, SeedRect(w, h)), h, w)
       && contoursOf(Zero(h, w)) == [] && blur(Zero(h, w)) == Zero(h, w) {
      NoForegroundKeepsImage(img, h, w, segment, contoursOf, blur);
    }
  }

  /**
   Whatever the segmentation returns, the written image shows only white and
   pixels of the input.
   */
  lemma ProcessImageDrawsFromInput(img: Image, h: nat, w: nat, segment: (Image, Rect) -> seq<seq<Byte>>,
                                   contoursOf: Mask -> seq<Contour>, blur: Mask -> Mask)
    requires IsGrid(img, h, w) && KeepsShape(segment) && BlurKeepsShape(blur)
    ensures WhiteOrFrom(ProcessImage(img, h, w, segment, contoursOf, blur), img, h, w)
  {
    var m := SegmentMask(img, h, w, segment, contoursOf, blur);
    var out := ProcessImage(img, h, w, segment, contoursOf, blur);
    if HasInk(m, h, w) {
      ComposeDrawsFromObject(img, m, h, w);
    } else {
      forall y, x | 0 <= y < h && 0 <= x < w
        ensures exists sy, sx :: 0 <= sy < h && 0 <= sx < w && out[y][x] == img[sy][sx]
      {
        assert out[y][x] == img[y][x];
      }
    }
  }
}

=== FILE: compositor.dfy ===
/**
 The centred compositor `_apply_white_background_centered`: the object
 selected by the mask is cut out along its bounding box and pasted, centred,
 onto a white canvas the size of the original image. Only cells whose mask
 value is non-zero are copied; this is a hard threshold, not an alpha blend.
 */
module Compositor {
  import opened Grid

  /** Some cell of `m` is non-zero, i.e. `cv2.findNonZero(m)` is not `None`. */
  predicate HasInk(m: Mask, h: nat, w: nat)
    requires IsGrid(m, h, w)
  {
    exists y, x :: 0 <= y < h && 0 <= x < w && m[y][x] > 0
  }

  /** Some cell `row[x]` with `lo <= x < hi` is non-zero. */
  predicate RowHasInk(row: seq<Byte>, lo: int, hi: int)
    requires 0 <= lo && hi <= |row|
  {
    exists x :: lo <= x < hi && row[x] > 0
  }

  /** Some cell `m[y][x]` with `lo <= y < hi` is non-zero. */
  predicate ColumnHasInk(m: Mask, h: nat, w: nat, x: int, lo: int, hi: int)
    requires IsGrid(m, h, w) && 0 <= x < w && 0 <= lo && hi <= h
  {
    exists y :: lo <= y < hi && m[y][x] > 0
  }

  /** Every non-zero cell of `m` lies in `r`. */
  predicate Encloses(r: Rect, m: Mask, h: nat, w: nat)
    requires IsGrid(m, h, w)
  {
    forall y, x :: 0 <= y < h && 0 <= x < w && m[y][x] > 0 ==> Contains(r, y, x)
  }

  /**
   `r` is the bounding box of the non-zero cells of `m`: it lies in the grid,
   is at least one cell wide and high, contains every non-zero cell, and each
   of its four edges passes through a non-zero cell.
   */
  predicate IsBoundingBox(r: Rect, m: Mask, h: nat, w: nat)
    requires IsGrid(m, h, w)
  {
    && Inside(r, h, w) && r.w >= 1 && r.h >= 1
    && Encloses(r, m, h, w)
    && ColumnHasInk(m, h, w, r.x, r.y, r.y + r.h)
    && ColumnHasInk(m, h, w, r.x + r.w - 1, r.y, r.y + r.h)
    && RowHasInk(m[r.y], r.x, r.x + r.w)
    && RowHasInk(m[r.y + r.h - 1], r.x, r.x + r.w)
  }

  /**
   The bounding box is the smallest rectangle enclosing the non-zero cells:
   any rectangle that encloses them all contains it.
   */
  lemma BoundingBoxIsSmallest(m: Mask, h: nat, w: nat, b: Rect, r: Rect)
    requires IsGrid(m, h, w)
    requires IsBoundingBox(b, m, h, w) && Encloses(r, m, h, w)
    ensures r.x <= b.x && b.x + b.w <= r.x + r.w
    ensures r.y <= b.y && b.y + b.h <= r.y + r.h
  {
    var ly :| b.y <= ly < b.y + b.h && m[ly][b.x] > 0;
    assert Contains(r, ly, b.x);
    var ry :| b.y <= ry < b.y + b.h && m[ry][b.x + b.w - 1] > 0;
    assert Contains(r, ry, b.x + b.w - 1);
    var tx :| b.x <= tx < b.x + b.w && m[b.y][tx] > 0;
    assert Contains(r, b.y, tx);
    var bx :| b.x <= bx < b.x + b.w && m[b.y + b.h - 1][bx] > 0;
    assert Contains(r, b.y + b.h - 1, bx);
  }

  /** A mask has at most one bounding box. */
  lemma BoundingBoxUnique(m: Mask, h: nat, w: nat, r1: Rect, r2: Rect)
    requires IsGrid(m, h, w)
    requires IsBoundingBox(r1, m, h, w) && IsBoundingBox(r2, m, h, w)
    ensures r1 == r2
  {
    BoundingBoxIsSmallest(m, h, w, r1, r2);
    BoundingBoxIsSmallest(m, h, w, r2, r1);
  }

  /** Which rows of `m` hold a non-zero cell. */
  function InkRows(m: Mask, h: nat, w: nat): (s: seq<bool>)
    requires IsGrid(m, h, w)
    ensures |s| == h
    ensures forall y :: 0 <= y < h ==> (s[y] <==> exists x :: 0 <= x < w && m[y][x] > 0)
  {
    seq(h, y requires 0 <= y < h => exists x :: 0 <= x < w && m[y][x] > 0)
  }

  /** Which columns of `m` hold a non-zero cell. */
  function InkColumns(m: Mask, h: nat, w: nat): (s: seq<bool>)
    requires IsGrid(m, h, w)
    ensures |s| == w
    ensures forall x :: 0 <= x < w ==> (s[x] <==> exists y :: 0 <= y < h && m[y][x] > 0)
  {
    seq(w, x requires 0 <= x < w => exists y :: 0 <= y < h && m[y][x] > 0)
  }

  /** The first `true` in `s` at or after `from`. */
  function FirstTrue(s: seq<bool>, from: nat): (k: nat)
    requires exists i :: from <= i < |s| && s[i]
    ensures from <= k < |s| && s[k]
    ensures forall i :: from <= i < k ==> !s[i]
    decreases |s| - from
  {
    if s[from] then from else FirstTrue(s, from + 1)
  }

  /** The last `true` in `s` before `upto`. */
  function LastTrue(s: seq<bool>, upto: nat): (k: nat)
    requires upto <= |s| && exists i :: 0 <= i < upto && s[i]
    ensures k < upto && s[k]
    ensures forall i :: k < i < upto ==> !s[i]
  {
    if s[upto - 1] then upto - 1 else LastTrue(s, upto - 1)
  }

  lemma InkRowsAndColumns(m: Mask, h: nat, w: nat)
    requires IsGrid(m, h, w) && HasInk(m, h, w)
    ensures exists y :: 0 <= y < h && InkRows(m, h, w)[y]
    ensures exists x :: 0 <= x < w && InkColumns(m, h, w)[x]
  {
    var y, x :| 0 <= y < h && 0 <= x < w && m[y][x] > 0;
    assert InkRows(m, h, w)[y];
    assert InkColumns(m, h, w)[x];
  }

  /**
   `cv2.boundingRect(cv2.findNonZero(m))`: from the first to the last row and
   from the first to the last column that hold a non-zero cell.
   */
  function BoundingRect(m: Mask, h: nat, w: nat): (r: Rect)
    requires IsGrid(m, h, w) && HasInk(m, h, w)
    ensures IsBoundingBox(r, m, h, w)
  {
    InkRowsAndColumns(m, h, w);
    var rows := InkRows(m, h, w);
    var cols := InkColumns(m, h, w);
    var top := FirstTrue(rows, 0);
    var bottom := LastTrue(rows, h);
    var left := FirstTrue(cols, 0);
    var right := LastTrue(cols, w);
    var r := Rect(left, top, right - left + 1, bottom - top + 1);
    BoundingRectCorrect(m, h, w, rows, cols, r);
    r
  }

  lemma BoundingRectCorrect(m: Mask, h: nat, w: nat, rows: seq<bool>, cols: seq<bool>, r: Rect)
    requires IsGrid(m, h, w)
    requires rows == InkRows(m, h, w) && cols == InkColumns(m, h, w)
    requires 0 <= r.y < h && rows[r.y] && forall i :: 0 <= i < r.y ==> !rows[i]
    requires 0 <= r.y + r.h - 1 < h && rows[r.y + r.h - 1] && forall i :: r.y + r.h - 1 < i < h ==> !rows[i]
    requires 0 <= r.x < w && cols[r.x] && forall i :: 0 <= i < r.x ==> !cols[i]
    requires 0 <= r.x + r.w - 1 < w && cols[r.x + r.w - 1] && forall i :: r.x + r.w - 1 < i < w ==> !cols[i]
    ensures IsBoundingBox(r, m, h, w)
  {
    forall y, x | 0 <= y < h && 0 <= x < w && m[y][x] > 0
      ensures Contains(r, y, x)
    {
      assert rows[y] && cols[x];
    }
    assert r.w >= 1 by { assert cols[r.x]; }
    assert r.h >= 1 by { assert rows[r.y]; }
    var ly :| 0 <= ly < h && m[ly][r.x] > 0;
    assert Contains(r, ly, r.x);
    var ry :| 0 <= ry < h && m[ry][r.x + r.w - 1] > 0;
    assert Contains(r, ry, r.x + r.w - 1);
    var tx :| 0 <= tx < w && m[r.y][tx] > 0;
    assert Contains(r, r.y, tx);
    var bx :| 0 <= bx < w && m[r.y + r.h - 1][bx] > 0;
    assert Contains(r, r.y + r.h - 1, bx);
  }

  /**
   Where the crop lands: offsets `(W - w) // 2` and `(H - h) // 2`, same size
   as the crop.
   */
  function Placement(b: Rect, h: nat, w: nat): (p: Rect)
    requires Inside(b, h, w)
    ensures Inside(p, h, w) && p.w == b.w && p.h == b.h
    ensures p.x <= w - (p.x + p.w) <= p.x + 1
    ensures p.y <= h - (p.y + p.h) <= p.y + 1
  {
    Rect((w - b.w) / 2, (h - b.h) / 2, b.w, b.h)
  }

  /**
   One cell of the canvas after the crop `b` of the image has been pasted at
   `p`: the image pixel the cell was cut from when the cell lies in `p` and
   the mask value it was cut from is non-zero (`fruit_mask > 0`), white
   otherwise.
   */
  function PastedCell(img: Image, m: Mask, h: nat, w: nat, b: Rect, p: Rect, y: int, x: int): Pixel
    requires IsGrid(img, h, w) && IsGrid(m, h, w)
    requires Inside(b, h, w) && Inside(p, h, w) && b.w == p.w && b.h == p.h
    requires 0 <= y < h && 0 <= x < w
  {
    if Contains(p, y, x) && m[y - p.y + b.y][x - p.x + b.x] > 0 then img[y - p.y + b.y][x - p.x + b.x]
    else White
  }

  /** The canvas after the crop `b` of the image has been pasted, through the mask, at `p`. */
  function CutAndPaste(img: Image, m: Mask, h: nat, w: nat, b: Rect, p: Rect): (out: Image)
    requires IsGrid(img, h, w) && IsGrid(m, h, w)
    requires Inside(b, h, w) && Inside(p, h, w) && b.w == p.w && b.h == p.h
    ensures IsGrid(out, h, w)
    ensures forall y, x :: 0 <= y < h && 0 <= x < w ==> out[y][x] == PastedCell(img, m, h, w, b, p, y, x)
  {
    seq(h, y requires 0 <= y < h =>
      seq(w, x requires 0 <= x < w => PastedCell(img, m, h, w, b, p, y, x)))
  }

  /** `_apply_white_background_centered(image, mask)`. */
  function Compose(img: Image, m: Mask, h: nat, w: nat): (out: Image)
    requires IsGrid(img, h, w) && IsGrid(m, h, w)
    ensures IsGrid(out, h, w)
    ensures !HasInk(m, h, w) ==> out == img
  {
    if !HasInk(m, h, w) then img
    else
      var b := BoundingRect(m, h, w);
      CutAndPaste(img, m, h, w, b, Placement(b, h, w))
  }

  /** `g[r.y:r.y+r.h, r.x:r.x+r.w]`. */
  function Crop<T>(g: seq<seq<T>>, r: Rect, h: nat, w: nat): (c: seq<seq<T>>)
    requires IsGrid(g, h, w) && Inside(r, h, w)
    ensures IsGrid(c, r.h, r.w)
    ensures forall i, j :: 0 <= i < r.h && 0 <= j < r.w ==> c[i][j] == g[r.y + i][r.x + j]
  {
    seq(r.h, i requires 0 <= i < r.h => g[r.y + i][r.x .. r.x + r.w])
  }

  /** `np.ones((h, w, 3), dtype=np.uint8) * 255`. */
  function WhiteCanvas(h: nat, w: nat): (c: Image)
    ensures IsGrid(c, h, w)
    ensures forall y, x :: 0 <= y < h && 0 <= x < w ==> c[y][x] == White
  {
    seq(h, _ => seq(w, _ => White))
  }

  /**
   One row of the region after the masked assignment: the patch pixel where
   the patch mask is non-zero, the old pixel elsewhere.
   */
  function MaskedRow(row: seq<Pixel>, patchRow: seq<Pixel>, maskRow: seq<Byte>): (r: seq<Pixel>)
    requires |patchRow| == |row| && |maskRow| == |row|
    ensures |r| == |row|
    ensures forall j :: 0 <= j < |row| && maskRow[j] > 0 ==> r[j] == patchRow[j]
    ensures forall j :: 0 <= j < |row| && maskRow[j] == 0 ==> r[j] == row[j]
  {
    seq(|row|, j requires 0 <= j < |row| => if maskRow[j] > 0 then patchRow[j] else row[j])
  }

  /** `row` with the cells from `lo` on overwritten by `mid`, as assigning through a slice view does. */
  function Splice<T>(row: seq<T>, lo: nat, mid: seq<T>): (r: seq<T>)
    requires lo + |mid| <= |row|
    ensures |r| == |row|
    ensures forall k :: 0 <= k < |row| ==> r[k] == if lo <= k < lo + |mid| then mid[k - lo] else row[k]
  {
    var r := row[..lo] + mid + row[lo + |mid|..];
    assert forall k :: 0 <= k < lo ==> r[k] == row[..lo][k];
    assert forall k :: lo + |mid| <= k < |row| ==> r[k] == row[lo + |mid|..][k - lo - |mid|];
    r
  }

  /**
   One canvas row after the masked assignment through the view starting at
   column `lo`: under the view, the patch pixel where the mask row is
   non-zero; everywhere else the old pixel.
   */
  function PastedRow(row: seq<Pixel>, lo: nat, patchRow: seq<Pixel>, maskRow: seq<Byte>): (r: seq<Pixel>)
    requires |maskRow| == |patchRow| && lo + |patchRow| <= |row|
    ensures |r| == |row|
    ensures forall k :: 0 <= k < |row| ==>
              r[k] == if lo <= k < lo + |patchRow| && maskRow[k - lo] > 0 then patchRow[k - lo] else row[k]
  {
    Splice(row, lo, MaskedRow(row[lo..lo + |patchRow|], patchRow, maskRow))
  }

  /**
   `roi[..., c][patch_mask > 0] = patch[..., c][patch_mask > 0]` for the
   view `roi = canvas[at.y:at.y+at.h, at.x:at.x+at.w]`, written row by row:
   rows the view covers are pasted into, all others are kept.
   */
  function Paste(canvas: Image, patch: Image, patchMask: Mask, at: Rect, h: nat, w: nat): (out: Image)
    requires IsGrid(canvas, h, w) && Inside(at, h, w)
    requires IsGrid(patch, at.h, at.w) && IsGrid(patchMask, at.h, at.w)
    ensures IsGrid(out, h, w)
    ensures forall y, x :: 0 <= y < h && 0 <= x < w && !Contains(at, y, x) ==> out[y][x] == canvas[y][x]
    ensures forall i, j :: 0 <= i < at.h && 0 <= j < at.w ==>
              out[at.y + i][at.x + j] == if patchMask[i][j] > 0 then patch[i][j] else canvas[at.y + i][at.x + j]
  {
    var out := seq(h, y requires 0 <= y < h =>
      if at.y <= y < at.y + at.h then PastedRow(canvas[y], at.x, patch[y - at.y], patchMask[y - at.y])
      else canvas[y]);
    PasteCells(canvas, patch, patchMask, at, h, w, out);
    out
  }

  /** The cell-wise meaning of the row-by-row paste, in canvas and in view coordinates. */
  lemma PasteCells(canvas: Image, patch: Image, patchMask: Mask, at: Rect, h: nat, w: nat, out: Image)
    requires IsGrid(canvas, h, w) && Inside(at, h, w)
    requires IsGrid(patch, at.h, at.w) && IsGrid(patchMask, at.h, at.w)
    requires |out| == h
    requires forall y :: 0 <= y < h ==>
               out[y] == if at.y <= y < at.y + at.h
                         then PastedRow(canvas[y], at.x, patch[y - at.y], patchMask[y - at.y])
                         else canvas[y]
    ensures IsGrid(out, h, w)
    ensures forall y, x :: 0 <= y < h && 0 <= x < w && !Contains(at, y, x) ==> out[y][x] == canvas[y][x]
    ensures forall i, j :: 0 <= i < at.h && 0 <= j < at.w ==>
              out[at.y + i][at.x + j] == if patchMask[i][j] > 0 then patch[i][j] else canvas[at.y + i][at.x + j]
  {
    forall i, j | 0 <= i < at.h && 0 <= j < at.w
      ensures out[at.y + i][at.x + j] == if patchMask[i][j] > 0 then patch[i][j] else canvas[at.y + i][at.x + j]
    {
      assert out[at.y + i] == PastedRow(canvas[at.y + i], at.x, patch[i], patchMask[i]);
    }
  }

  /**
   The cell-wise `CutAndPaste` is the Python code's own sequence of steps: crop
   image and mask to `b`, allocate a white canvas, and copy the cropped
   pixels into the region `p` wherever the cropped mask is non-zero.
   */
  lemma CutAndPasteIsCropThenPaste(img: Image, m: Mask, h: nat, w: nat, b: Rect, p: Rect)
    requires IsGrid(img, h, w) && IsGrid(m, h, w)
    requires Inside(b, h, w) && Inside(p, h, w) && b.w == p.w && b.h == p.h
    ensures Paste(WhiteCanvas(h, w), Crop(img, b, h, w), Crop(m, b, h, w), p, h, w)
            == CutAndPaste(img, m, h, w, b, p)
  {
    var canvas, patch, patchMask := WhiteCanvas(h, w), Crop(img, b, h, w), Crop(m, b, h, w);
    var viaCrop := Paste(canvas, patch, patchMask, p, h, w);
    var direct := CutAndPaste(img, m, h, w, b, p);
    forall y | 0 <= y < h
      ensures viaCrop[y] == direct[y]
    {
      forall x | 0 <= x < w
        ensures viaCrop[y][x] == direct[y][x]
      {
        PasteAt(canvas, patch, patchMask, p, h, w, viaCrop, y, x);
        CropThenPasteCell(img, m, h, w, b, p, viaCrop[y][x], y, x);
      }
    }
  }

  /** One cell of the crop-then-paste canvas is the cell `CutAndPaste` defines. */
  lemma CropThenPasteCell(img: Image, m: Mask, h: nat, w: nat, b: Rect, p: Rect, cell: Pixel, y: int, x: int)
    requires IsGrid(img, h, w) && IsGrid(m, h, w)
    requires Inside(b, h, w) && Inside(p, h, w) && b.w == p.w && b.h == p.h
    requires 0 <= y < h && 0 <= x < w
    requires cell == if Contains(p, y, x) && Crop(m, b, h, w)[y - p.y][x - p.x] > 0
                     then Crop(img, b, h, w)[y - p.y][x - p.x] else White
    ensures cell == PastedCell(img, m, h, w, b, p, y, x)
  {
    if Contains(p, y, x) {
      var i, j := y - p.y, x - p.x;
      CropCell(m, b, h, w, Crop(m, b, h, w), i, j);
      CropCell(img, b, h, w, Crop(img, b, h, w), i, j);
    }
  }

  /** One cell of a crop, named by the crop itself. */
  lemma CropCell<T>(g: seq<seq<T>>, r: Rect, h: nat, w: nat, c: seq<seq<T>>, i: int, j: int)
    requires IsGrid(g, h, w) && Inside(r, h, w) && c == Crop(g, r, h, w)
    requires 0 <= i < r.h && 0 <= j < r.w
    ensures c[i][j] == g[r.y + i][r.x + j]
  {
  }

  /** One cell of a paste, in canvas coordinates. */
  lemma PasteAt(canvas: Image, patch: Image, patchMask: Mask, at: Rect, h: nat, w: nat, out: Image, y: int, x: int)
    requires IsGrid(canvas, h, w) && Inside(at, h, w)
    requires IsGrid(patch, at.h, at.w) && IsGrid(patchMask, at.h, at.w)
    requires out == Paste(canvas, patch, patchMask, at, h, w)
    requires 0 <= y < h && 0 <= x < w
    ensures out[y][x] == if Contains(at, y, x) && patchMask[y - at.y][x - at.x] > 0
                         then patch[y - at.y][x - at.x] else canvas[y][x]
  {
    if Contains(at, y, x) {
      var i, j := y - at.y, x - at.x;
      assert out[at.y + i][at.x + j] == if patchMask[i][j] > 0 then patch[i][j] else canvas[at.y + i][at.x + j];
    }
  }

  /**
   When `b` encloses every non-zero mask cell, cutting and pasting is a
   translation by `(dy, dx) = p - b`: an output cell shows the input pixel it
   came from when that pixel's mask value is non-zero, and white otherwise.
   */
  lemma CutAndPasteTranslates(img: Image, m: Mask, h: nat, w: nat, b: Rect, p: Rect, dy: int, dx: int)
    requires IsGrid(img, h, w) && IsGrid(m, h, w)
    requires Inside(b, h, w) && Inside(p, h, w) && b.w == p.w && b.h == p.h
    requires Encloses(b, m, h, w)
    requires dy == p.y - b.y && dx == p.x - b.x
    ensures var out := CutAndPaste(img, m, h, w, b, p);
            forall y, x :: 0 <= y < h && 0 <= x < w ==>
              out[y][x] == if 0 <= y - dy < h && 0 <= x - dx < w && m[y - dy][x - dx] > 0
                           then img[y - dy][x - dx] else White
  {
    var out := CutAndPaste(img, m, h, w, b, p);
    forall y, x | 0 <= y < h && 0 <= x < w
      ensures out[y][x] == if 0 <= y - dy < h && 0 <= x - dx < w && m[y - dy][x - dx] > 0
                           then img[y - dy][x - dx] else White
    {
      if !Contains(p, y, x) && 0 <= y - dy < h && 0 <= x - dx < w && m[y - dy][x - dx] > 0 {
        assert false;
      }
    }
  }

  /**
   Pasting the crop `b` at `p` leaves every cell outside `p` white, and the
   cell at offset `(i, j)` of `p` shows the image cell at offset `(i, j)` of
   `b` when the mask there is non-zero and white when it is zero.
   */
  lemma CutAndPasteRegion(img: Image, m: Mask, h: nat, w: nat, b: Rect, p: Rect)
    requires IsGrid(img, h, w) && IsGrid(m, h, w)
    requires Inside(b, h, w) && Inside(p, h, w) && b.w == p.w && b.h == p.h
    ensures var out := CutAndPaste(img, m, h, w, b, p);
            forall y, x :: 0 <= y < h && 0 <= x < w && !Contains(p, y, x) ==> out[y][x] == White
    ensures var out := CutAndPaste(img, m, h, w, b, p);
            forall y, x :: Contains(b, y, x) ==>
              out[y - b.y + p.y][x - b.x + p.x] == if m[y][x] > 0 then img[y][x] else White
  {
    var out := CutAndPaste(img, m, h, w, b, p);
    forall y, x | Contains(b, y, x)
      ensures out[y - b.y + p.y][x - b.x + p.x] == if m[y][x] > 0 then img[y][x] else White
    {
      var cy, cx := y - b.y + p.y, x - b.x + p.x;
      assert cy - p.y + b.y == y && cx - p.x + b.x == x;
      assert out[cy][cx] == PastedCell(img, m, h, w, b, p, cy, cx);
    }
  }

  /** With ink present, the compositor cuts out the bounding box `b` and pastes it at its placement. */
  lemma ComposeCutsAndPastes(img: Image, m: Mask, h: nat, w: nat, b: Rect)
    requires IsGrid(img, h, w) && IsGrid(m, h, w) && HasInk(m, h, w)
    requires b == BoundingRect(m, h, w)
    ensures Compose(img, m, h, w) == CutAndPaste(img, m, h, w, b, Placement(b, h, w))
  {
  }

  /**
   The compositor's output, for the bounding box `b` and its placement `p`:
   white outside `p`; inside it, the crop of the image where the crop of the
   mask is non-zero and white where it is zero.
   */
  lemma ComposePlacement(img: Image, m: Mask, h: nat, w: nat, b: Rect, p: Rect)
    requires IsGrid(img, h, w) && IsGrid(m, h, w) && HasInk(m, h, w)
    requires b == BoundingRect(m, h, w) && p == Placement(b, h, w)
    ensures var out := Compose(img, m, h, w);
            forall y, x :: 0 <= y < h && 0 <= x < w && !Contains(p, y, x) ==> out[y][x] == White
    ensures var out := Compose(img, m, h, w);
            forall y, x :: Contains(b, y, x) ==>
              out[y - b.y + p.y][x - b.x + p.x] == if m[y][x] > 0 then img[y][x] else White
  {
    ComposeCutsAndPastes(img, m, h, w, b);
    CutAndPasteRegion(img, m, h, w, b, p);
  }

  /**
   The composite is the mask-selected part of the image moved by
   `(dy, dx)`, the placement corner minus the bounding-box corner, onto
   white: an output cell shows the input pixel it came from when that
   pixel's mask value is non-zero, and white otherwise.
   */
  lemma ComposeTranslates(img: Image, m: Mask, h: nat, w: nat, dy: int, dx: int)
    requires IsGrid(img, h, w) && IsGrid(m, h, w) && HasInk(m, h, w)
    requires var b := BoundingRect(m, h, w);
             dy == Placement(b, h, w).y - b.y && dx == Placement(b, h, w).x - b.x
    ensures var out := Compose(img, m, h, w);
            forall y, x :: 0 <= y < h && 0 <= x < w ==>
              out[y][x] == if 0 <= y - dy < h && 0 <= x - dx < w && m[y - dy][x - dx] > 0
                           then img[y - dy][x - dx] else White
  {
    var b := BoundingRect(m, h, w);
    var p := Placement(b, h, w);
    ComposeCutsAndPastes(img, m, h, w, b);
    CutAndPasteTranslates(img, m, h, w, b, p, dy, dx);
  }

  /** Every non-zero mask cell reappears, unchanged, moved by `(dy, dx)` and inside the canvas. */
  lemma ComposeKeepsObject(img: Image, m: Mask, h: nat, w: nat, dy: int, dx: int)
    requires IsGrid(img, h, w) && IsGrid(m, h, w) && HasInk(m, h, w)
    requires var b := BoundingRect(m, h, w);
             dy == Placement(b, h, w).y - b.y && dx == Placement(b, h, w).x - b.x
    ensures var out := Compose(img, m, h, w);
            forall y, x :: 0 <= y < h && 0 <= x < w && m[y][x] > 0 ==>
              0 <= y + dy < h && 0 <= x + dx < w && out[y + dy][x + dx] == img[y][x]
  {
    var b := BoundingRect(m, h, w);
    var out := Compose(img, m, h, w);
    ComposeTranslates(img, m, h, w, dy, dx);
    forall y, x | 0 <= y < h && 0 <= x < w && m[y][x] > 0
      ensures 0 <= y + dy < h && 0 <= x + dx < w && out[y + dy][x + dx] == img[y][x]
    {
      assert Contains(b, y, x);
      assert (y + dy) - dy == y && (x + dx) - dx == x;
    }
  }

  /**
   Nothing is invented: every pixel of the composite is either white or a
   pixel of the input image at a cell the mask selects.
   */
  lemma ComposeDrawsFromObject(img: Image, m: Mask, h: nat, w: nat)
    requires IsGrid(img, h, w) && IsGrid(m, h, w) && HasInk(m, h, w)
    ensures var out := Compose(img, m, h, w);
            forall y, x :: 0 <= y < h && 0 <= x < w ==>
              out[y][x] == White ||
              exists sy, sx :: 0 <= sy < h && 0 <= sx < w && m[sy][sx] > 0 && out[y][x] == img[sy][sx]
  {
    var b := BoundingRect(m, h, w);
    var p := Placement(b, h, w);
    var dy, dx := p.y - b.y, p.x - b.x;
    var out := Compose(img, m, h, w);
    ComposeTranslates(img, m, h, w, dy, dx);
    forall y, x | 0 <= y < h && 0 <= x < w && out[y][x] != White
      ensures exists sy, sx :: 0 <= sy < h && 0 <= sx < w && m[sy][sx] > 0 && out[y][x] == img[sy][sx]
    {
      assert m[y - dy][x - dx] > 0 && out[y][x] == img[y - dy][x - dx];
    }
  }

  /** The mask moved by `(dy, dx)`, zero where nothing moves in. */
  function MoveMask(m: Mask, h: nat, w: nat, dy: int, dx: int): (r: Mask)
    requires IsGrid(m, h, w)
    ensures IsGrid(r, h, w)
    ensures forall y, x :: 0 <= y < h && 0 <= x < w ==>
              r[y][x] == if 0 <= y - dy < h && 0 <= x - dx < w then m[y - dy][x - dx] else 0
  {
    seq(h, y requires 0 <= y < h =>
      seq(w, x requires 0 <= x < w =>
        if 0 <= y - dy < h && 0 <= x - dx < w then m[y - dy][x - dx] else 0))
  }

  /**
   An object that is already centred stays where it is: when the bounding
   box coincides with its placement, the output keeps the image where the
   mask is non-zero and is white everywhere else.
   */
  lemma ComposeCentred(img: Image, m: Mask, h: nat, w: nat)
    requires IsGrid(img, h, w) && IsGrid(m, h, w) && HasInk(m, h, w)
    requires Placement(BoundingRect(m, h, w), h, w) == BoundingRect(m, h, w)
    ensures var out := Compose(img, m, h, w);
            forall y, x :: 0 <= y < h && 0 <= x < w ==>
              out[y][x] == if m[y][x] > 0 then img[y][x] else White
  {
    ComposeTranslates(img, m, h, w, 0, 0);
  }

  /** Moving the mask by `p - b` moves every non-zero cell into `p`. */
  lemma MovedEncloses(m: Mask, h: nat, w: nat, b: Rect, p: Rect, dy: int, dx: int)
    requires IsGrid(m, h, w) && Encloses(b, m, h, w) && Inside(p, h, w)
    requires p.w == b.w && p.h == b.h && dy == p.y - b.y && dx == p.x - b.x
    ensures Encloses(p, MoveMask(m, h, w, dy, dx), h, w)
  {
    var m2 := MoveMask(m, h, w, dy, dx);
    forall y, x | 0 <= y < h && 0 <= x < w && m2[y][x] > 0
      ensures Contains(p, y, x)
    {
      assert Contains(b, y - dy, x - dx);
    }
  }

  /** Moving the mask by `p - b` moves the bounding box `b` onto `p`. */
  lemma MovedBoundingBox(m: Mask, h: nat, w: nat, b: Rect, p: Rect, dy: int, dx: int)
    requires IsGrid(m, h, w) && IsBoundingBox(b, m, h, w) && Inside(p, h, w)
    requires p.w == b.w && p.h == b.h && dy == p.y - b.y && dx == p.x - b.x
    ensures IsBoundingBox(p, MoveMask(m, h, w, dy, dx), h, w)
  {
    var m2 := MoveMask(m, h, w, dy, dx);
    MovedEncloses(m, h, w, b, p, dy, dx);
    var ly :| b.y <= ly < b.y + b.h && m[ly][b.x] > 0;
    assert m2[ly + dy][p.x] == m[ly][b.x];
    var ry :| b.y <= ry < b.y + b.h && m[ry][b.x + b.w - 1] > 0;
    assert m2[ry + dy][p.x + p.w - 1] == m[ry][b.x + b.w - 1];
    var tx :| b.x <= tx < b.x + b.w && m[b.y][tx] > 0;
    assert m2[p.y][tx + dx] == m[b.y][tx];
    var bx :| b.x <= bx < b.x + b.w && m[b.y + b.h - 1][bx] > 0;
    assert m2[p.y + p.h - 1][bx + dx] == m[b.y + b.h - 1][bx];
  }

  /** Placing an already placed box leaves it where it is. */
  lemma PlacementIsFixed(b: Rect, h: nat, w: nat)
    requires Inside(b, h, w)
    ensures Placement(Placement(b, h, w), h, w) == Placement(b, h, w)
  {
  }

  /** A mask with a bounding box has a non-zero cell. */
  lemma BoundingBoxHasInk(m: Mask, h: nat, w: nat, r: Rect)
    requires IsGrid(m, h, w) && IsBoundingBox(r, m, h, w)
    ensures HasInk(m, h, w)
  {
    var y :| r.y <= y < r.y + r.h && m[y][r.x] > 0;
  }

  /** Moving the mask by `p - b` makes `p` what `BoundingRect` computes for the moved mask. */
  lemma MovedMaskBoundingRect(m: Mask, h: nat, w: nat, b: Rect, p: Rect, dy: int, dx: int)
    requires IsGrid(m, h, w) && IsBoundingBox(b, m, h, w) && Inside(p, h, w)
    requires p.w == b.w && p.h == b.h && dy == p.y - b.y && dx == p.x - b.x
    ensures HasInk(MoveMask(m, h, w, dy, dx), h, w)
    ensures BoundingRect(MoveMask(m, h, w, dy, dx), h, w) == p
  {
    var m2 := MoveMask(m, h, w, dy, dx);
    MovedBoundingBox(m, h, w, b, p, dy, dx);
    BoundingBoxHasInk(m2, h, w, p);
    BoundingBoxUnique(m2, h, w, BoundingRect(m2, h, w), p);
  }

  /**
   Cutting and pasting again, with the mask moved along with the object,
   from the target region onto itself reproduces the first result.
   */
  lemma CutAndPasteIdempotent(img: Image, m: Mask, h: nat, w: nat, b: Rect, p: Rect, dy: int, dx: int)
    requires IsGrid(img, h, w) && IsGrid(m, h, w)
    requires Inside(b, h, w) && Inside(p, h, w) && b.w == p.w && b.h == p.h
    requires Encloses(b, m, h, w)
    requires dy == p.y - b.y && dx == p.x - b.x
    ensures var out := CutAndPaste(img, m, h, w, b, p);
            CutAndPaste(out, MoveMask(m, h, w, dy, dx), h, w, p, p) == out
  {
    var out := CutAndPaste(img, m, h, w, b, p);
    var m2 := MoveMask(m, h, w, dy, dx);
    CutAndPasteTranslates(img, m, h, w, b, p, dy, dx);
    MovedEncloses(m, h, w, b, p, dy, dx);
    CutAndPasteTranslates(out, m2, h, w, p, p, 0, 0);
    var out2 := CutAndPaste(out, m2, h, w, p, p);
    forall y | 0 <= y < h
      ensures out2[y] == out[y]
    {
      forall x | 0 <= x < w
        ensures out2[y][x] == out[y][x]
      {
      }
    }
  }

  /**
   Centring is idempotent: composing the output again, with the mask moved
   along with the object by `(dy, dx)`, reproduces the output.
   */
  lemma ComposeIdempotent(img: Image, m: Mask, h: nat, w: nat, dy: int, dx: int)
    requires IsGrid(img, h, w) && IsGrid(m, h, w) && HasInk(m, h, w)
    requires var b := BoundingRect(m, h, w);
             dy == Placement(b, h, w).y - b.y && dx == Placement(b, h, w).x - b.x
    ensures var out := Compose(img, m, h, w);
            Compose(out, MoveMask(m, h, w, dy, dx), h, w) == out
  {
    var b := BoundingRect(m, h, w);
    var p := Placement(b, h, w);
    var out := Compose(img, m, h, w);
    var m2 := MoveMask(m, h, w, dy, dx);
    ComposeCutsAndPastes(img, m, h, w, b);
    MovedMaskBoundingRect(m, h, w, b, p, dy, dx);
    PlacementIsFixed(b, h, w);
    ComposeCutsAndPastes(out, m2, h, w, p);
    CutAndPasteIdempotent(img, m, h, w, b, p, dy, dx);
  }

  /** The mask that is 255 on the rectangle `r` and 0 elsewhere. */
  function RectMask(r: Rect, h: nat, w: nat): (m: Mask)
    ensures IsGrid(m, h, w)
    ensures forall y, x :: 0 <= y < h && 0 <= x < w ==> (m[y][x] > 0 <==> Contains(r, y, x))
  {
    seq(h, y => seq(w, x => if Contains(r, y, x) then 255 else 0))
  }

  /** A non-empty rectangle inside the grid is the bounding box of its own mask. */
  lemma RectMaskBoundingRect(r: Rect, h: nat, w: nat)
    requires Inside(r, h, w) && r.w >= 1 && r.h >= 1
    ensures HasInk(RectMask(r, h, w), h, w)
    ensures BoundingRect(RectMask(r, h, w), h, w) == r
  {
    var m := RectMask(r, h, w);
    assert m[r.y][r.x] > 0 && m[r.y + r.h - 1][r.x + r.w - 1] > 0;
    assert m[r.y][r.x + r.w - 1] > 0 && m[r.y + r.h - 1][r.x] > 0;
    assert IsBoundingBox(r, m, h, w);
    BoundingBoxHasInk(m, h, w, r);
    BoundingBoxUnique(m, h, w, BoundingRect(m, h, w), r);
  }

  /**
   Pasting an image onto white in place, through the mask of a rectangle,
   gives it back when it is already white outside that rectangle.
   */
  lemma CutAndPasteInPlace(img: Image, h: nat, w: nat, p: Rect)
    requires IsGrid(img, h, w) && Inside(p, h, w)
    requires forall y, x :: 0 <= y < h && 0 <= x < w && !Contains(p, y, x) ==> img[y][x] == White
    ensures CutAndPaste(img, RectMask(p, h, w), h, w, p, p) == img
  {
    var again := CutAndPaste(img, RectMask(p, h, w), h, w, p, p);
    forall y | 0 <= y < h
      ensures again[y] == img[y]
    {
      forall x | 0 <= x < w
        ensures again[y][x] == img[y][x]
      {
      }
    }
  }

  /**
   Recomposing the output with the mask of the object's new bounding region,
   the placement rectangle, changes nothing: the object is already centred
   and everything outside the region is already white.
   */
  lemma ComposeIdempotentWithRect(img: Image, m: Mask, h: nat, w: nat, b: Rect, p: Rect)
    requires IsGrid(img, h, w) && IsGrid(m, h, w) && HasInk(m, h, w)
    requires b == BoundingRect(m, h, w) && p == Placement(b, h, w)
    ensures Compose(Compose(img, m, h, w), RectMask(p, h, w), h, w) == Compose(img, m, h, w)
  {
    var out := Compose(img, m, h, w);
    RectMaskBoundingRect(p, h, w);
    PlacementIsFixed(b, h, w);
    ComposeCutsAndPastes(out, RectMask(p, h, w), h, w, p);
    ComposePlacement(img, m, h, w, b, p);
    CutAndPasteInPlace(out, h, w, p);
  }
}

=== FILE: grid.dfy ===
/**
 Shared vocabulary of the background remover: bytes, BGR pixels, rectangular
 grids (images, masks and label maps) and axis-aligned rectangles.

 A grid is a row-major `seq<seq<T>>`: `g[y][x]` is the cell in row `y`,
 column `x`, exactly as a NumPy array of shape `(H, W)` is indexed.
 */
module Grid {

  /** An unsigned 8-bit value, the element type of every OpenCV buffer here. */
  type Byte = b: int | 0 <= b < 256

  /** One pixel of a colour image, channels in OpenCV's blue-green-red order. */
  datatype Pixel = Pixel(blue: Byte, green: Byte, red: Byte)

  /** Pure white, the colour of a fresh canvas. */
  const White: Pixel := Pixel(255, 255, 255)

  type Image = seq<seq<Pixel>>
  type Mask = seq<seq<Byte>>

  /** `g` has `h` rows of `w` cells each. */
  predicate IsGrid<T>(g: seq<seq<T>>, h: nat, w: nat)
  {
    |g| == h && forall y :: 0 <= y < h ==> |g[y]| == w
  }

  /** An axis-aligned rectangle in OpenCV's `(x, y, w, h)` convention. */
  datatype Rect = Rect(x: int, y: int, w: int, h: int)

  /** `r` has non-negative extent and lies inside an `h`-by-`w` grid. */
  predicate Inside(r: Rect, h: int, w: int)
  {
    0 <= r.x && 0 <= r.y && 0 <= r.w && 0 <= r.h && r.x + r.w <= w && r.y + r.h <= h
  }

  /** Cell `(y, x)` lies in the half-open box `[r.x, r.x + r.w) x [r.y, r.y + r.h)`. */
  predicate Contains(r: Rect, y: int, x: int)
  {
    r.x <= x < r.x + r.w && r.y <= y < r.y + r.h
  }

  /** The all-zero mask of the given size (what `np.zeros` allocates). */
  function Zero(h: nat, w: nat): (m: Mask)
    ensures IsGrid(m, h, w)
    ensures forall y, x :: 0 <= y < h && 0 <= x < w ==> m[y][x] == 0
  {
    seq(h, _ => seq(w, _ => 0))
  }
}

=== FILE: refine.dfy ===
/**
 The mask refiner of `_create_mask_grabcut`: the GrabCut label map is turned
 into a 0/255 mask, the largest external contour is kept and redrawn filled,
 and the result is feathered.

 Contour tracing, polygon area, filled drawing and the Gaussian blur are
 OpenCV routines outside this model. A traced contour is represented by its
 area and by the set of cells a filled drawing of it paints; `findContours`
 and `GaussianBlur` are passed in as functions.
 */
module Refine {
  import opened Grid

  /** GrabCut's cell labels (`cv2.GC_BGD`, `cv2.GC_FGD`, `cv2.GC_PR_BGD`, `cv2.GC_PR_FGD`). */
  const DefiniteBackground: Byte := 0
  const DefiniteForeground: Byte := 1
  const ProbableBackground: Byte := 2
  const ProbableForeground: Byte := 3

  predicate IsForeground(cell: Byte)
  {
    cell == DefiniteForeground || cell == ProbableForeground
  }

  /** A label map with no definite or probable foreground cell. */
  predicate AllBackground(labels: seq<seq<Byte>>, h: nat, w: nat)
    requires IsGrid(labels, h, w)
  {
    forall y, x :: 0 <= y < h && 0 <= x < w ==> !IsForeground(labels[y][x])
  }

  /** The mask holds only the two values 0 and 255. */
  predicate IsBinary(m: Mask, h: nat, w: nat)
    requires IsGrid(m, h, w)
  {
    forall y, x :: 0 <= y < h && 0 <= x < w ==> m[y][x] == 0 || m[y][x] == 255
  }

  /** `np.where((mask == GC_FGD) | (mask == GC_PR_FGD), 255, 0)`. */
  function Binarise(labels: seq<seq<Byte>>, h: nat, w: nat): (m: Mask)
    requires IsGrid(labels, h, w)
    ensures IsGrid(m, h, w)
    ensures IsBinary(m, h, w)
    ensures forall y, x :: 0 <= y < h && 0 <= x < w ==>
              (m[y][x] == 255 <==> labels[y][x] in {DefiniteForeground, ProbableForeground})
  {
    seq(h, y requires 0 <= y < h =>
      seq(w, x requires 0 <= x < w =>
        if IsForeground(labels[y][x]) then 255 else 0))
  }

  /** Without foreground labels the binarised mask is all zero. */
  lemma BinariseAllBackground(labels: seq<seq<Byte>>, h: nat, w: nat)
    requires IsGrid(labels, h, w)
    ensures AllBackground(labels, h, w) <==> Binarise(labels, h, w) == Zero(h, w)
  {
    var m := Binarise(labels, h, w);
    if AllBackground(labels, h, w) {
      forall y | 0 <= y < h
        ensures m[y] == Zero(h, w)[y]
      {
      }
    } else {
      var y, x :| 0 <= y < h && 0 <= x < w && IsForeground(labels[y][x]);
      assert m[y][x] != Zero(h, w)[y][x];
    }
  }

  /** One external contour: its polygon area and the cells a filled drawing of it covers. */
  datatype Contour = Contour(area: real, filled: set<(int, int)>)

  /**
   `k` is where Python's `max(contours, key=cv2.contourArea)` stops: its area
   is at least every other area, and every earlier contour is strictly smaller
   (`max` only replaces its candidate on a strictly greater key, so the first
   of several equal maxima wins).
   */
  predicate IsFirstLargest(cs: seq<Contour>, k: int)
  {
    && 0 <= k < |cs|
    && (forall j :: 0 <= j < |cs| ==> cs[j].area <= cs[k].area)
    && (forall j :: 0 <= j < k ==> cs[j].area < cs[k].area)
  }

  /** The left-to-right scan of `max`: `best` is the candidate after looking at `cs[..i]`. */
  function ScanLargest(cs: seq<Contour>, i: nat, best: nat): (k: nat)
    requires best < i <= |cs|
    requires forall j :: 0 <= j < i ==> cs[j].area <= cs[best].area
    requires forall j :: 0 <= j < best ==> cs[j].area < cs[best].area
    ensures IsFirstLargest(cs, k)
    decreases |cs| - i
  {
    if i == |cs| then best
    else if cs[i].area > cs[best].area then ScanLargest(cs, i + 1, i)
    else ScanLargest(cs, i + 1, best)
  }

  /** Index of the contour `max(contours, key=cv2.contourArea)` returns. */
  function LargestIndex(cs: seq<Contour>): (k: nat)
    requires |cs| > 0
    ensures IsFirstLargest(cs, k)
  {
    ScanLargest(cs, 1, 0)
  }

  /** The tie-break is deterministic: exactly one index is the first largest. */
  lemma FirstLargestUnique(cs: seq<Contour>, k1: int, k2: int)
    requires IsFirstLargest(cs, k1) && IsFirstLargest(cs, k2)
    ensures k1 == k2
  {
    assert cs[k1].area == cs[k2].area;
    if k1 < k2 {
      assert false;
    } else if k2 < k1 {
      assert false;
    }
  }

  /** `cv2.drawContours(np.zeros_like(mask), [c], -1, 255, thickness=cv2.FILLED)`. */
  function Paint(cells: set<(int, int)>, h: nat, w: nat): (m: Mask)
    ensures IsGrid(m, h, w)
    ensures IsBinary(m, h, w)
    ensures forall y, x :: 0 <= y < h && 0 <= x < w ==> (m[y][x] == 255 <==> (y, x) in cells)
  {
    seq(h, y => seq(w, x => if (y, x) in cells then 255 else 0))
  }

  /**
   Keeps only the largest contour: when any contour exists the mask is
   replaced by the filled drawing of the first largest one; otherwise the
   mask is left as it was.
   */
  function KeepLargest(m: Mask, cs: seq<Contour>, h: nat, w: nat): (r: Mask)
    requires IsGrid(m, h, w)
    ensures IsGrid(r, h, w)
    ensures |cs| == 0 ==> r == m
    ensures |cs| > 0 ==> IsBinary(r, h, w)
    ensures |cs| > 0 ==>
              exists k :: (IsFirstLargest(cs, k) &&
                forall y, x :: 0 <= y < h && 0 <= x < w ==> (r[y][x] == 255 <==> (y, x) in cs[k].filled))
  {
    if |cs| == 0 then m
    else
      var k := LargestIndex(cs);
      Paint(cs[k].filled, h, w)
  }

  /**
   The whole of `_create_mask_grabcut` after `cv2.grabCut`: binarise, keep the
   largest contour of the binarised mask, feather. `contoursOf` stands for
   `cv2.findContours(..., RETR_EXTERNAL, ...)` and `blur` for
   `cv2.GaussianBlur(..., (7, 7), 0)`, which keeps the mask's shape.
   */
  function CreateMask(labels: seq<seq<Byte>>, h: nat, w: nat,
                      contoursOf: Mask -> seq<Contour>, blur: Mask -> Mask): (m: Mask)
    requires IsGrid(labels, h, w)
    requires forall g: Mask :: IsGrid(g, h, w) ==> IsGrid(blur(g), h, w)
    ensures IsGrid(m, h, w)
  {
    var binary := Binarise(labels, h, w);
    blur(KeepLargest(binary, contoursOf(binary), h, w))
  }

  /**
   With no foreground label, no contour is found in the all-zero mask and a
   Gaussian blur of zero is zero, so the refined mask is all zero.
   */
  lemma CreateMaskAllBackground(labels: seq<seq<Byte>>, h: nat, w: nat,
                                contoursOf: Mask -> seq<Contour>, blur: Mask -> Mask)
    requires IsGrid(labels, h, w)
    requires forall g: Mask :: IsGrid(g, h, w) ==> IsGrid(blur(g), h, w)
    requires AllBackground(labels, h, w)
    requires contoursOf(Zero(h, w)) == []
    requires blur(Zero(h, w)) == Zero(h, w)
    ensures CreateMask(labels, h, w, contoursOf, blur) == Zero(h, w)
  {
    BinariseAllBackground(labels, h, w);
  }
}

=== FILE: seed.dfy ===
/**
 The GrabCut seed rectangle: an 8% margin is taken off each side of the image
 and the remaining centre is handed to the segmentation as the initial
 foreground guess.
 */
module Seed {
  import opened Grid

  /**
   The margin `int(n * 0.08)`.

   The Python code multiplies by the double nearest 0.08, which is a little
   ABOVE 0.08, and truncates. `8 * n / 100` equals that for every side below
   2^31, which covers every size OpenCV can hold:
   when `8 * n` is a multiple of 100 the rounded product cannot fall below the
   integer, and otherwise `8 * n / 100` has a fractional part of at least 1/25
   and at most 24/25, far more than the rounding error of a double away from
   either neighbouring integer.
   */
  function Margin(n: nat): (m: nat)
    ensures 100 * m <= 8 * n < 100 * (m + 1)
  {
    (n * 8) / 100
  }

  /** The seed rectangle `(mw, mh, W - 2mw, H - 2mh)` for a `width`-by-`height` image. */
  function SeedRect(width: nat, height: nat): (r: Rect)
    ensures r.x == Margin(width) && r.y == Margin(height)
    ensures r.x + r.w + r.x == width && r.y + r.h + r.y == height
    ensures width >= 1 && height >= 1 ==> Inside(r, height, width) && r.w >= 1 && r.h >= 1
  {
    var mw := Margin(width);
    var mh := Margin(height);
    Rect(mw, mh, width - 2 * mw, height - 2 * mh)
  }

  /**
   Small images get no margin at all: below 13 pixels the 8% margin truncates
   to zero and the seed covers the whole side.
   */
  lemma SmallSideHasNoMargin(width: nat, height: nat)
    requires width <= 12 && height <= 12
    ensures Margin(width) == 0 && Margin(height) == 0
    ensures SeedRect(width, height) == Rect(0, 0, width, height)
  {
  }

  /**
   The seed rectangle is the whole image, so GrabCut gets no pixel marked as
   background: this happens exactly when both sides are at most 12 pixels.
   */
  predicate SeedCoversImage(width: nat, height: nat)
  {
    SeedRect(width, height) == Rect(0, 0, width, height)
  }

  lemma SeedCoversImageIffSmall(width: nat, height: nat)
    ensures SeedCoversImage(width, height) <==> width <= 12 && height <= 12
  {
    if SeedCoversImage(width, height) {
      assert Margin(width) == 0 && Margin(height) == 0;
    }
  }
}
